=== FILE: README.md ===
# Clarifai output deserialization, modelled in Dafny

This project models the core of the Clarifai C# client that turns one output of
a prediction request — a loosely typed JSON tree — into a `ClarifaiOutput`:
its id, status, creation time, optional echoed input, and the ordered list of
predictions. The list is built by a `switch` on the model type's prediction
class name (`Color`, `Concept`, `Demographics`, `Embedding`, `FaceConcepts`,
`FaceDetection`, `FaceEmbedding`, `Focus`, `Frame`, `Logo`), which picks the
payload array under `data` (`colors`, `concepts`, `embeddings`, `frames` or
`regions`) and runs each entry through that class's `Deserialize`. The generic
`ClarifaiOutput<T>` chooses the model type from the name of `T` and offers a
typed view of the list. The one prediction class modelled in full is `Focus`:
its deserialization from a region plus a shared value, its equality, its hash
code and its constant `TYPE` tag `"focus"` (`FocusPrediction.Type`).

Files and modules:

- `wrappers.dfy` (`Wrappers`): `Option` and `Result`.
- `errors.dfy` (`Errors`): the exceptions a deserialization can raise.
- `json_tree.dfy` (`JsonTree`): the JSON tree, `dynamic` member reads (a missing
  property reads as C# null, `None`) and the explicit conversions
  `(decimal)`, `(string)` and the `foreach` enumeration.
- `prediction_types.dfy` (`PredictionTypes`): the class names of the switch,
  their payload keys, and `ModelType` as the class name it carries.
- `collaborators.dfy` (`Collaborators`): stand-ins for the values built by code
  outside this model, and `Env`, the record of those deserializers as function
  parameters.
- `predictions.dfy` (`Predictions`): the prediction values, one constructor per class.
- `focus.dfy` (`FocusPrediction`): `Focus.cs`.
- `clarifai_output.dfy` (`ClarifaiOutput`): `ClarifaiOutput.cs`.
- `clarifai_output_properties.dfy` (`ClarifaiOutputProperties`): properties that
  relate several calls or inputs.

Every operation is a pure function returning `Result`: an exception in the
source is a `Failure`, and the first one raised is the one returned.
`ClarifaiOutput.Builds` describes the list the switch builds entry by entry,
with a quantifier over the payload's indices. It reuses the reads of the
`data` object, the name lookup, the enumeration and the per-entry constructor,
and is independent only of the recursion in `CollectAll`.
`DeserializePredictions` is proved to return exactly the lists it describes.

Behaviour of the code worth knowing:

- A missing or JSON-null `data` throws at `.Count`; it is not read as "no predictions".
- The unknown-name throw sits inside the `Count > 0` guard, so an unknown name
  with an empty `data` object gives an empty list and no error.
- `data.focus.value` is read inside the loop, once per region, so an empty
  `regions` array never reads it.
- `ClarifaiOutput.Equals` compares the prediction lists by reference, so two
  outputs holding different list objects never compare equal.
- The typed `Data` view is `Cast<T>()`, which throws an invalid cast on the
  first prediction that is not a `T`.

## Model

| member | source | states |
|---|---|---|
| `Errors.UnknownOutputTypeMessage` | Clarifai/DTOs/Models/Outputs/ClarifaiOutput.cs:174-175 | The error message is "Unknown output type `" then the type name then a closing backtick, so it names the type |
| `Errors.UnknownOutputTypeNamesType` | Clarifai/DTOs/Models/Outputs/ClarifaiOutput.cs:174-175 | The exception raised for an unknown name determines that name: distinct names give distinct exceptions |
| `JsonTree.Member` | Clarifai/DTOs/Models/Outputs/ClarifaiOutput.cs:152 | A `dynamic` member read succeeds iff the value is a JSON object, yielding the property or C# null when the property is missing; otherwise it raises a runtime binder error |
| `JsonTree.Path` | Clarifai/DTOs/Predictions/Focus.cs:25-26 | A chain of member reads: the empty chain is the value itself, one name is one member read, and a non-empty chain succeeds only on an object |
| `JsonTree.PathConcat` | Clarifai/DTOs/Predictions/Focus.cs:25-26 | Reading `a` then `b` is reading the chain `a + b`, failing with the first failing read |
| `JsonTree.ToDecimal` | Clarifai/DTOs/Predictions/Focus.cs:26 | `(decimal)` gives only in-range results. A JSON number converts iff it is within the decimal range and otherwise overflows. A boolean gives 1 or 0. A string converts through the parser, failing the cast when it does not parse and overflowing when the parsed value is out of range. Null, missing, arrays and objects fail the cast |
| `JsonTree.Enumerate` | Clarifai/DTOs/Models/Outputs/ClarifaiOutput.cs:92 | The `foreach` source: succeeds iff the payload is a JSON array, giving its items in order; a missing or JSON-null payload throws a null reference |
| `ClarifaiOutput.FocusValue` | Clarifai/DTOs/Models/Outputs/ClarifaiOutput.cs:152 | `(decimal) data.focus.value` throws a runtime binder error at `.value` when `focus` is missing or not an object. Otherwise it is exactly the decimal cast of `focus.value`, with that cast's result or error |
| `JsonTree.ToText` | Clarifai/DTOs/Models/Outputs/ClarifaiOutput.cs:72 | `(string)` of the id is null exactly when the property is missing or JSON null. A string is kept as is, and a number or boolean is printed by the .NET conversion. Arrays and objects fail as an invalid cast to string |
| `PredictionTypes.FromName` | Clarifai/DTOs/Models/Outputs/ClarifaiOutput.cs:87-176 | The switch selects a class only for its own name, and falls to `default` exactly for names no class has |
| `PredictionTypes.NameRoundTrip` | Clarifai/DTOs/Models/Outputs/ClarifaiOutput.cs:87-176 | Every class name the switch lists selects that class |
| `PredictionTypes.NameInjective` | Clarifai/DTOs/Models/Outputs/ClarifaiOutput.cs:87-176 | Distinct classes have distinct names, so each case is reached by one class only |
| `PredictionTypes.PayloadKeySelection` | Clarifai/DTOs/Models/Outputs/ClarifaiOutput.cs:90-171 | Color reads `colors`, Concept `concepts`, Embedding `embeddings`, Frame `frames`; exactly Demographics, FaceConcepts, FaceDetection, FaceEmbedding, Focus and Logo read `regions` |
| `ClarifaiOutput.CollectAll` | Clarifai/DTOs/Models/Outputs/ClarifaiOutput.cs:92-95 | The foreach-and-add loop succeeds iff every entry constructs; the list then has the entries' length with element i built from entry i; otherwise the error is that of the first failing entry |
| `ClarifaiOutput.CollectAllDetermined` | Clarifai/DTOs/Models/Outputs/ClarifaiOutput.cs:92-95 | Any list that agrees entry by entry with the constructor is the one the loop returns |
| `ClarifaiOutput.DataObject` | Clarifai/DTOs/Models/Outputs/ClarifaiOutput.cs:82-85 | The `(JObject) data` cast succeeds exactly when the output is an object whose `data` is an object, and yields its members. A non-object output throws a runtime binder error at `.data`. A missing or JSON-null `data` throws a null reference at `.Count`. Any other value fails the cast |
| `ClarifaiOutput.Construct` | Clarifai/DTOs/Models/Outputs/ClarifaiOutput.cs:90-171 | One loop iteration yields a prediction of the dispatched class. A class other than Focus succeeds iff its constructor does, and fails with that constructor's error. Focus first reads `data.focus.value`, whose failure is the iteration's error. It then succeeds iff `Focus.Deserialize(entry, value)` does, giving that prediction or that error |
| `ClarifaiOutput.DeserializePredictions` | Clarifai/DTOs/Models/Outputs/ClarifaiOutput.cs:79-180 | Returns exactly the list `Builds` describes: empty for an empty `data` object, whatever the name, and otherwise entry i of the class's payload array constructed in order. It fails with UnknownOutputType iff `data` is non-empty and the name is unknown. Every prediction's class name is the model type's |
| `ClarifaiOutput.Deserialize` | Clarifai/DTOs/Models/Outputs/ClarifaiOutput.cs:67-77 | Reads the predictions, then the `(string)` id, status, `created_at` and a non-null `input`, in that order. The first read that fails gives the output's error. When all succeed the output is built, holding those predictions and values, with an input that is null iff `input` is missing or JSON null |
| `ClarifaiOutput.OutputEquals` | Clarifai/DTOs/Models/Outputs/ClarifaiOutput.cs:182-190 | Equal iff both hold the same list object and all fields agree; outputs holding different list objects are never equal |
| `ClarifaiOutput.DeserializeAs` | Clarifai/DTOs/Models/Outputs/ClarifaiOutput.cs:230-242 | The generic path fails with ConstructFromName's error when that fails. On success it records T and holds the non-generic output for the model type built from T's name |
| `ClarifaiOutput.CastAll` | Clarifai/DTOs/Models/Outputs/ClarifaiOutput.cs:217 | `Cast<T>().ToList()` succeeds iff every element is a T (any prediction when T is `IPrediction`), and returns the same list; otherwise an invalid cast naming T |
| `ClarifaiOutput.Data` | Clarifai/DTOs/Models/Outputs/ClarifaiOutput.cs:217 | The typed view succeeds iff every prediction is a T, keeping length and order; it never fails for T = `IPrediction` |
| `ClarifaiOutputProperties.EmptyDataGivesNoPredictions` | Clarifai/DTOs/Models/Outputs/ClarifaiOutput.cs:82-86 | An empty `data` object gives an empty list and no error for any type name |
| `ClarifaiOutputProperties.MissingPayloadFails` | Clarifai/DTOs/Models/Outputs/ClarifaiOutput.cs:90-96 | With non-empty `data` and a known class, a missing payload key makes the loop throw |
| `ClarifaiOutputProperties.OnlySelectedKeyMatters` | Clarifai/DTOs/Models/Outputs/ClarifaiOutput.cs:90-171 | Two outputs whose `data` agree on the class's payload key (and on `focus` for Focus) give the same result |
| `ClarifaiOutputProperties.FirstFailingEntryAborts` | Clarifai/DTOs/Models/Outputs/ClarifaiOutput.cs:88-177 | If entry i is the first whose constructor throws, the call fails with that error and returns no list |
| `ClarifaiOutputProperties.FocusPredictionsShareValue` | Clarifai/DTOs/Models/Outputs/ClarifaiOutput.cs:147-155 | Every focus prediction of an output carries the one value read from `data.focus.value` |
| `ClarifaiOutputProperties.EmptyRegionsSkipFocusValue` | Clarifai/DTOs/Models/Outputs/ClarifaiOutput.cs:149-153 | A focus output with an empty `regions` array gives an empty list without reading `data.focus` |
| `ClarifaiOutputProperties.GenericMatchesNonGeneric` | Clarifai/DTOs/Models/Outputs/ClarifaiOutput.cs:230-242 | The generic path succeeds iff the non-generic path does with `ConstructFromName(T.Name)`, with the same output or the same error |
| `ClarifaiOutputProperties.ConsistentRegistryGivesTypedData` | Clarifai/DTOs/Models/Outputs/ClarifaiOutput.cs:217-241 | For a class T whose ConstructFromName(T.Name) carries T's own name, the typed view never throws and holds all predictions |
| `ClarifaiOutputProperties.MismatchedRegistryFailsTypedData` | Clarifai/DTOs/Models/Outputs/ClarifaiOutput.cs:217-241 | For a class T whose model type carries another class's name, the typed view of a non-empty output throws an invalid cast naming T |
| `ClarifaiOutputProperties.InterfaceTypedDataNeverFails` | Clarifai/DTOs/Models/Outputs/ClarifaiOutput.cs:215-217 | With T = `IPrediction` the typed view of any deserialized output succeeds with all its predictions |
| `ClarifaiOutputProperties.ConceptOutputExample` | Clarifai/DTOs/Models/Outputs/ClarifaiOutput.cs:98-105 | Two concept entries give the two constructed concepts in array order |
| `ClarifaiOutputProperties.EmptyRegionsExample` | Clarifai/DTOs/Models/Outputs/ClarifaiOutput.cs:131-138 | A face-detection output with `regions: []` gives an empty list |
| `ClarifaiOutputProperties.UnknownNameExample` | Clarifai/DTOs/Models/Outputs/ClarifaiOutput.cs:172-176 | An unknown name with non-empty `data` fails with UnknownOutputType naming it |
| `FocusPrediction.Deserialize` | Clarifai/DTOs/Predictions/Focus.cs:22-28 | Succeeds iff `region_info.bounding_box` is readable and its crop builds, and `data.focus.density` is readable and converts to a decimal in range. The crop and density come from those paths and the value is the argument. Otherwise the error is that of the first failing read, in the order box read, crop, density read, cast |
| `FocusPrediction.ValueIndependentOfRegion` | Clarifai/DTOs/Predictions/Focus.cs:22-27 | Focus predictions built from any two regions with the same value carry that value |
| `FocusPrediction.SameBoxAndDensityGiveEqualFocus` | Clarifai/DTOs/Predictions/Focus.cs:22-36 | Regions that agree on bounding box and density give `Equals`-equal predictions, whatever else they hold |
| `FocusPrediction.Equals` | Clarifai/DTOs/Predictions/Focus.cs:30-36 | Equal iff the other object is a focus prediction with the same crop, density and value |
| `FocusPrediction.EqualsIsEquivalence` | Clarifai/DTOs/Predictions/Focus.cs:30-36 | `Equals` is reflexive, symmetric and transitive |
| `FocusPrediction.HashCode` | Clarifai/DTOs/Predictions/Focus.cs:38-45 | The hash is a 32-bit integer mixed from the crop, density and value hashes |
| `FocusPrediction.EqualFocusHaveEqualHash` | Clarifai/DTOs/Predictions/Focus.cs:30-45 | `Equals`-equal focus predictions have equal hash codes |
| `FocusPrediction.TagIsFocus` | Clarifai/DTOs/Predictions/Focus.cs:7 | Every focus prediction's `TYPE` is `"focus"`, whatever its fields |

## Left out

- The constructors of the other prediction classes and of `Crop` are parameters of `Env`. So are `ClarifaiStatus.Deserialize`, `ClarifaiInput.Deserialize`, the `(DateTime)` conversion and `ModelType.ConstructFromName`. Their failures are exceptions carrying a message. These classes are not part of this model.
- Every collaborator failure is modelled as `Raised`, never as a `ClarifaiException`. The "only if" half of the unknown-name result of `ClarifaiOutput.DeserializePredictions` rests on this. A collaborator that itself threw a `ClarifaiException` with the same message would not be told apart in the source.
- `Crop`, `ClarifaiStatus` and `ClarifaiInput` equality is modelled as structural equality. Their own `Equals` methods are not part of this model.
- `ModelType` is reduced to the name of its prediction class, the only part the deserializer reads.
- JsonTree.ToDecimal: models the range check of `(decimal)` but not its rounding; `decimal` is an exact `real` here. Newtonsoft reads an integer literal as an Int64 or BigInteger, which converts exactly, as modelled. A literal with a fraction or an exponent is read as a double, and the double converts to decimal with at most 15 significant digits, so its value can change. The model keeps the literal's exact value.
- Parsing a decimal from a JSON string and printing a JSON number or boolean as the id text are parameters (`parseDecimal`, `scalarText`).
- JsonTree.Enumerate: treats every non-array payload as a failure: JSON null or missing throws a null reference, anything else a failed cast. Newtonsoft's dynamic enumeration of other values is not modelled. An empty JSON object, for one, would be enumerated with zero entries.
- FocusPrediction.HashCode: takes the hashes of `Crop` and `decimal` as parameters. Only the 32-bit mixing with the source's constants is modelled.
- ClarifaiOutput.CastAll: `is T` is decided by class name, with `IPrediction` as the one interface. Any other interface or base class that prediction classes might share is not part of this model.
- `ClarifaiOutput.GetHashCode` and every `ToString` are left out: they are not used by deserialization.
- Batch and paginated deserialization of several outputs is not in this source and is not modelled.
- `FaceEmbeddingModel`, `LogoModel`, `GetModelVersionsRequest` and the workflow integration tests are left out. They are client-side model objects, HTTP request plumbing and live network tests.

=== FILE: clarifai_output.dfy ===
/**
  `ClarifaiOutput`: one output of a prediction request, deserialized from its
  JSON tree by dispatching on the model type's prediction class name, and the
  generic `ClarifaiOutput<T>` with its typed view of the predictions.
*/
module ClarifaiOutput {
  import opened Wrappers
  import opened Errors
  import opened JsonTree
  import opened Collaborators
  import opened Predictions
  import PT = PredictionTypes
  import FocusPrediction

  datatype Output = Output(
    id: Option<string>,
    status: Status,
    createdAt: Timestamp,
    /** `None` is a null `Input`. */
    input: Option<Input>,
    data: seq<Prediction>)

  /**
    Runs `f` over `xs` in order and collects the results, as a `foreach` that
    adds to a list does: the first entry whose constructor throws aborts the
    whole run with that entry's error, and no partial list is returned.
  */
  function CollectAll<A, B>(f: A -> Result<B, Error>, xs: seq<A>): (r: Result<seq<B>, Error>)
    ensures r.Success? <==> forall i :: 0 <= i < |xs| ==> f(xs[i]).Success?
    ensures r.Success? ==> |r.value| == |xs| && forall i :: 0 <= i < |xs| ==> f(xs[i]) == Success(r.value[i])
    ensures r.Failure? ==>
      exists i :: 0 <= i < |xs| && f(xs[i]) == Failure(r.error) && forall j :: 0 <= j < i ==> f(xs[j]).Success?
  {
    if |xs| == 0 then Success([])
    else
      var head :- f(xs[0]);
      var tail :- CollectAll(f, xs[1..]);
      Success([head] + tail)
  }

  /**
    A list that agrees with `f` entry by entry is the one `CollectAll`
    returns: collecting is determined by the per-entry results.
  */
  lemma {:induction false} CollectAllDetermined<A, B>(f: A -> Result<B, Error>, xs: seq<A>, ys: seq<B>)
    requires |ys| == |xs|
    requires forall i :: 0 <= i < |xs| ==> f(xs[i]) == Success(ys[i])
    ensures CollectAll(f, xs) == Success(ys)
  {
    if |xs| > 0 {
      assert f(xs[0]) == Success(ys[0]);
      CollectAllDetermined(f, xs[1..], ys[1..]);
      assert ys == [ys[0]] + ys[1..];
    }
  }

  /** `(JObject) item.data`: null (C# or JSON) reaches `.Count` and throws; a non-object fails the cast. */
  function DataObject(item: Json): (r: Result<map<string, Json>, Error>)
    ensures r.Success? <==> item.JObject? && "data" in item.members && item.members["data"].JObject?
    ensures r.Success? ==> r.value == item.members["data"].members
    ensures r.Failure? ==> !r.error.ClarifaiException?
    ensures !item.JObject? ==> r == Failure(RuntimeBinder("data"))
    ensures item.JObject? && IsNull(Lookup(item.members, "data")) ==> r == Failure(NullReference("Count"))
    ensures item.JObject? && !IsNull(Lookup(item.members, "data")) && !item.members["data"].JObject? ==>
      r == Failure(InvalidCast("JObject"))
  {
    var d :- Member(Some(item), "data");
    match d
    case Some(JObject(m)) => Success(m)
    case _ => if IsNull(d) then Failure(NullReference("Count")) else Failure(InvalidCast("JObject"))
  }

  /** `(decimal) item.data.focus.value`, the focus value shared by an output's regions. */
  function FocusValue(data: map<string, Json>, env: Env): (r: Result<real, Error>)
    ensures r.Success? <==>
      && "focus" in data && data["focus"].JObject?
      && ToDecimal(Lookup(data["focus"].members, "value"), env.parseDecimal).Success?
    ensures r.Success? ==> r == ToDecimal(Lookup(data["focus"].members, "value"), env.parseDecimal)
    ensures r.Success? ==> InDecimalRange(r.value)
    ensures r.Failure? ==> !r.error.ClarifaiException?
    ensures !("focus" in data && data["focus"].JObject?) ==> r == Failure(RuntimeBinder("value"))
    ensures "focus" in data && data["focus"].JObject? ==>
      r == ToDecimal(Lookup(data["focus"].members, "value"), env.parseDecimal)
  {
    var v :- Path(Lookup(data, "focus"), ["value"]);
    ToDecimal(v, env.parseDecimal)
  }

  /**
    The body of one `foreach` iteration: the class's constructor applied to
    one payload entry. The `Focus` case reads the output's focus value first.
  */
  function Construct(t: PT.PredictionType, entry: Json, data: map<string, Json>, env: Env): (r: Result<Prediction, Error>)
    ensures r.Success? ==> TypeOf(r.value) == t
    ensures t == PT.Focus ==> (r.Success? <==>
      && FocusValue(data, env).Success?
      && FocusPrediction.Deserialize(entry, FocusValue(data, env).value, env).Success?)
    ensures t == PT.Focus && r.Success? ==>
      r.value == Prediction.Focus(FocusPrediction.Deserialize(entry, FocusValue(data, env).value, env).value)
    ensures t == PT.Focus && r.Success? ==> r.value.focus.value == FocusValue(data, env).value
    ensures t == PT.Focus && FocusValue(data, env).Failure? ==> r == Failure(FocusValue(data, env).error)
    ensures t == PT.Focus && FocusValue(data, env).Success? ==>
      var f := FocusPrediction.Deserialize(entry, FocusValue(data, env).value, env);
      f.Failure? ==> r == Failure(f.error)
    ensures t != PT.Focus ==> (r.Success? <==> env.variant(t, entry).Success?)
    ensures t != PT.Focus && r.Failure? ==> r.error == Raised(env.variant(t, entry).error)
    ensures t != PT.Focus && r.Success? ==> r.value == Wrap(t, env.variant(t, entry).value)
    ensures r.Failure? ==> !r.error.ClarifaiException?
  {
    if t == PT.Focus then
      var value :- FocusValue(data, env);
      var f :- FocusPrediction.Deserialize(entry, value, env);
      Success(Prediction.Focus(f))
    else
      var fields :- env.variant(t, entry).MapFailure(msg => Raised(msg));
      Success(Wrap(t, fields))
  }

  /**
    Reference description of the list the dispatcher builds for `modelType`:
    with an empty `data` object it is empty; otherwise the class name is known,
    the payload under that class's key is an array, and the list holds, entry
    by entry and in order, what the class's constructor builds from it.
  */
  ghost predicate Builds(modelType: PT.ModelType, item: Json, env: Env, ps: seq<Prediction>)
  {
    match DataObject(item)
    case Failure(_) => false
    case Success(data) =>
      if |data| == 0 then ps == []
      else
        match PT.FromName(modelType.predictionName)
        case None => false
        case Some(t) =>
          match Enumerate(Lookup(data, PT.PayloadKey(t)), PT.PayloadKey(t))
          case Failure(_) => false
          case Success(entries) =>
            && |ps| == |entries|
            && forall i :: 0 <= i < |entries| ==> Construct(t, entries[i], data, env) == Success(ps[i])
  }

  /**
    `DeserializePredictions`: the switch on the model type's prediction class
    name. An empty `data` object gives no predictions whatever the name; with
    a non-empty one an unknown name throws, and a known name enumerates the
    array under its payload key through the class's constructor.
  */
  function DeserializePredictions(modelType: PT.ModelType, item: Json, env: Env): (r: Result<seq<Prediction>, Error>)
    ensures r.Success? ==> item.JObject? && Builds(modelType, item, env, r.value)
    ensures forall ps :: Builds(modelType, item, env, ps) ==> r == Success(ps)
    ensures r == Failure(UnknownOutputType(modelType.predictionName)) <==>
      && DataObject(item).Success?
      && |DataObject(item).value| > 0
      && PT.FromName(modelType.predictionName).None?
    ensures r.Success? ==> forall i :: 0 <= i < |r.value| ==> ClassName(r.value[i]) == modelType.predictionName
  {
    var data :- DataObject(item);
    if |data| == 0 then Success([])
    else
      match PT.FromName(modelType.predictionName)
      case None => Failure(UnknownOutputType(modelType.predictionName))
      case Some(t) =>
        var key := PT.PayloadKey(t);
        var entries :- Enumerate(Lookup(data, key), key);
        var f := e => Construct(t, e, data, env);
        assert forall ps :: Builds(modelType, item, env, ps) ==> CollectAll(f, entries) == Success(ps) by {
          forall ps | Builds(modelType, item, env, ps) {
            CollectAllDetermined(f, entries, ps);
          }
        }
        CollectAll(f, entries)
  }

  /** `item.name` on an output object (C# null when missing); a non-object has no members. */
  function Field(item: Json, name: string): Dyn
  {
    if item.JObject? then Lookup(item.members, name) else None
  }

  /**
    `ClarifaiOutput.Deserialize`: the predictions first, then the id, status,
    creation time and, when the tree has a non-null `input`, the echoed input.
    The first step that throws aborts the whole output.
  */
  function Deserialize(modelType: PT.ModelType, item: Json, env: Env): (r: Result<Output, Error>)
    ensures DeserializePredictions(modelType, item, env).Failure? ==>
      r == Failure(DeserializePredictions(modelType, item, env).error)
    ensures r.Success? ==> item.JObject? && DeserializePredictions(modelType, item, env) == Success(r.value.data)
    ensures r.Success? ==> ToText(Field(item, "id"), env.scalarText) == Success(r.value.id)
    ensures r.Success? ==> env.status(Field(item, "status")) == Success(r.value.status)
    ensures r.Success? ==> "created_at" in item.members && env.dateTime(item.members["created_at"]) == Success(r.value.createdAt)
    ensures r.Success? ==> (r.value.input.None? <==> IsNull(Field(item, "input")))
    ensures r.Success? && r.value.input.Some? ==> env.input(item.members["input"]) == Success(r.value.input.value)
    // Each later read, reached only when every read before it succeeded, fails the whole output.
    ensures DeserializePredictions(modelType, item, env).Success? ==>
      var id := ToText(Field(item, "id"), env.scalarText);
      var status := env.status(Field(item, "status"));
      var created := Field(item, "created_at");
      var input := Field(item, "input");
      && (id.Failure? ==> r == Failure(id.error))
      && (id.Success? && status.Failure? ==> r == Failure(Raised(status.error)))
      && (id.Success? && status.Success? && created.None? ==> r == Failure(InvalidCast("DateTime")))
      && (id.Success? && status.Success? && created.Some? && env.dateTime(created.value).Failure? ==>
            r == Failure(Raised(env.dateTime(created.value).error)))
      && (id.Success? && status.Success? && created.Some? && env.dateTime(created.value).Success?
          && !IsNull(input) && env.input(input.value).Failure? ==>
            r == Failure(Raised(env.input(input.value).error)))
    // When every read succeeds, the output is built.
    ensures
      && DeserializePredictions(modelType, item, env).Success?
      && ToText(Field(item, "id"), env.scalarText).Success?
      && env.status(Field(item, "status")).Success?
      && Field(item, "created_at").Some?
      && env.dateTime(Field(item, "created_at").value).Success?
      && (IsNull(Field(item, "input")) || env.input(Field(item, "input").value).Success?)
      ==> r.Success?
  {
    var data :- DeserializePredictions(modelType, item, env);
    // The predictions read `item.data`, so from here on `item` is an object.
    var id :- ToText(Field(item, "id"), env.scalarText);
    var status :- env.status(Field(item, "status")).MapFailure(msg => Raised(msg));
    var createdField := Field(item, "created_at");
    var createdAt :- if createdField.None? then Failure(InvalidCast("DateTime"))
                     else env.dateTime(createdField.value).MapFailure(msg => Raised(msg));
    var inputField := Field(item, "input");
    var input :- if IsNull(inputField) then Success(None)
                 else env.input(inputField.value).MapFailure(msg => Raised(msg)).MapValue(i => Some(i));
    Success(Output(id, status, createdAt, input, data))
  }

  /** `ClarifaiOutput.Equals`. `sameList` says whether both outputs hold the same `List` object. */
  function OutputEquals(a: Output, b: Output, sameList: bool): (r: bool)
    requires sameList ==> a.data == b.data
    ensures r <==> sameList && a == b
    ensures !sameList ==> !r
  {
    // The default comparer of `List<IPrediction>` compares references.
    && a.id == b.id
    && a.status == b.status
    && a.createdAt == b.createdAt
    && a.input == b.input
    && sameList
  }

  /** A `ClarifaiOutput<T>`: an output together with its type argument `T`. */
  datatype TypedOutput = TypedOutput(target: Target, output: Output)

  /**
    `ClarifaiOutput<T>.Deserialize`: the model type is built from the name
    of `T`, then the output is read as the non-generic path reads it.
  */
  function DeserializeAs(target: Target, item: Json, env: Env): (r: Result<TypedOutput, Error>)
    ensures r.Success? ==> r.value.target == target
    ensures env.constructFromName(TargetName(target)).Failure? ==>
      r == Failure(Raised(env.constructFromName(TargetName(target)).error))
    ensures r.Success? ==>
      && env.constructFromName(TargetName(target)).Success?
      && Deserialize(env.constructFromName(TargetName(target)).value, item, env) == Success(r.value.output)
  {
    var modelType :- env.constructFromName(TargetName(target)).MapFailure(msg => Raised(msg));
    var output :- Deserialize(modelType, item, env);
    Success(TypedOutput(target, output))
  }

  /** `Cast<T>().ToList()`: the same list when every element `is T`, else an invalid cast to `T`. */
  function CastAll(ps: seq<Prediction>, target: Target): (r: Result<seq<Prediction>, Error>)
    ensures r.Success? <==> forall i :: 0 <= i < |ps| ==> IsInstance(ps[i], target)
    ensures r.Success? ==> r.value == ps
    ensures r.Failure? ==> r.error == InvalidCast(TargetName(target))
  {
    if |ps| == 0 then Success([])
    else if !IsInstance(ps[0], target) then Failure(InvalidCast(TargetName(target)))
    else
      var rest :- CastAll(ps[1..], target);
      Success([ps[0]] + rest)
  }

  /**
    The typed `Data` view of a `ClarifaiOutput<T>`: the predictions, same
    length and order, when all of them are instances of `T`; otherwise the cast throws.
  */
  function Data(t: TypedOutput): (r: Result<seq<Prediction>, Error>)
    ensures r.Success? <==> forall p :: p in t.output.data ==> IsInstance(p, t.target)
    ensures t.target.AnyPrediction? ==> r.Success?
    ensures r.Success? ==> r.value == t.output.data
    ensures r.Failure? ==> r.error == InvalidCast(TargetName(t.target))
  {
    CastAll(t.output.data, t.target)
  }
}

=== FILE: clarifai_output_properties.dfy ===
/** Properties of the output deserializer that relate several calls or several inputs. */
module ClarifaiOutputProperties {
  import opened Wrappers
  import opened Errors
  import opened JsonTree
  import opened Collaborators
  import opened Predictions
  import PT = PredictionTypes
  import opened ClarifaiOutput

  /** An empty `data` object gives an empty prediction list and no error, whatever the class name. */
  lemma EmptyDataGivesNoPredictions(modelType: PT.ModelType, item: Json, env: Env)
    requires DataObject(item).Success? && |DataObject(item).value| == 0
    ensures DeserializePredictions(modelType, item, env) == Success([])
  {
  }

  /** With a non-empty `data` object, a missing payload key makes the enumeration throw. */
  lemma MissingPayloadFails(modelType: PT.ModelType, item: Json, env: Env, t: PT.PredictionType)
    requires DataObject(item).Success? && |DataObject(item).value| > 0
    requires PT.FromName(modelType.predictionName) == Some(t)
    requires PT.PayloadKey(t) !in DataObject(item).value
    ensures DeserializePredictions(modelType, item, env) == Failure(NullReference(PT.PayloadKey(t)))
  {
  }

  /** Collecting depends only on what `f` and `g` give for the entries at hand. */
  lemma {:induction false} CollectAllCongruent<A, B>(f: A -> Result<B, Error>, g: A -> Result<B, Error>, xs: seq<A>)
    requires forall i :: 0 <= i < |xs| ==> f(xs[i]) == g(xs[i])
    ensures CollectAll(f, xs) == CollectAll(g, xs)
  {
    if |xs| > 0 {
      CollectAllCongruent(f, g, xs[1..]);
    }
  }

  /**
    Key selection: the predictions of a non-empty `data` object depend only on
    the payload under the class's key and, for `Focus`, on `data.focus`.
  */
  lemma OnlySelectedKeyMatters(modelType: PT.ModelType, a: Json, b: Json, env: Env, t: PT.PredictionType)
    requires DataObject(a).Success? && |DataObject(a).value| > 0
    requires DataObject(b).Success? && |DataObject(b).value| > 0
    requires PT.FromName(modelType.predictionName) == Some(t)
    requires Lookup(DataObject(a).value, PT.PayloadKey(t)) == Lookup(DataObject(b).value, PT.PayloadKey(t))
    requires t == PT.Focus ==> Lookup(DataObject(a).value, "focus") == Lookup(DataObject(b).value, "focus")
    ensures DeserializePredictions(modelType, a, env) == DeserializePredictions(modelType, b, env)
  {
    var da, db := DataObject(a).value, DataObject(b).value;
    var key := PT.PayloadKey(t);
    var entries := Enumerate(Lookup(da, key), key);
    if entries.Success? {
      var es := entries.value;
      var f := e => Construct(t, e, da, env);
      var g := e => Construct(t, e, db, env);
      forall i | 0 <= i < |es|
        ensures f(es[i]) == g(es[i])
      {
        if t == PT.Focus {
          assert FocusValue(da, env) == FocusValue(db, env);
        }
      }
      CollectAllCongruent(f, g, es);
    }
  }

  /**
    All or nothing: when entry `i` is the first whose constructor throws, the
    whole call fails with that entry's error and returns no list.
  */
  lemma FirstFailingEntryAborts(modelType: PT.ModelType, item: Json, env: Env, t: PT.PredictionType, i: nat)
    requires DataObject(item).Success? && |DataObject(item).value| > 0
    requires PT.FromName(modelType.predictionName) == Some(t)
    requires Enumerate(Lookup(DataObject(item).value, PT.PayloadKey(t)), PT.PayloadKey(t)).Success?
    requires var es := Enumerate(Lookup(DataObject(item).value, PT.PayloadKey(t)), PT.PayloadKey(t)).value;
      && i < |es|
      && (forall j :: 0 <= j < i ==> Construct(t, es[j], DataObject(item).value, env).Success?)
      && Construct(t, es[i], DataObject(item).value, env).Failure?
    ensures DeserializePredictions(modelType, item, env) ==
      Failure(Construct(t, Enumerate(Lookup(DataObject(item).value, PT.PayloadKey(t)), PT.PayloadKey(t)).value[i],
                        DataObject(item).value, env).error)
  {
    var data := DataObject(item).value;
    var es := Enumerate(Lookup(data, PT.PayloadKey(t)), PT.PayloadKey(t)).value;
    var f := e => Construct(t, e, data, env);
    var r := CollectAll(f, es);
    assert r.Failure?;
    var k :| 0 <= k < |es| && f(es[k]) == Failure(r.error) && forall j :: 0 <= j < k ==> f(es[j]).Success?;
    assert k == i;
  }

  /**
    Every focus prediction of an output carries the same value, the one read
    from the output's `data.focus.value`.
  */
  lemma FocusPredictionsShareValue(modelType: PT.ModelType, item: Json, env: Env)
    requires modelType.predictionName == "Focus"
    requires DeserializePredictions(modelType, item, env).Success?
    requires |DeserializePredictions(modelType, item, env).value| > 0
    ensures DataObject(item).Success? && FocusValue(DataObject(item).value, env).Success?
    ensures var ps := DeserializePredictions(modelType, item, env).value;
      forall i :: 0 <= i < |ps| ==>
        ps[i].Focus? && ps[i].focus.value == FocusValue(DataObject(item).value, env).value
  {
    var ps := DeserializePredictions(modelType, item, env).value;
    var data := DataObject(item).value;
    assert PT.FromName("Focus") == Some(PT.Focus);
    var es := Enumerate(Lookup(data, "regions"), "regions").value;
    assert Construct(PT.Focus, es[0], data, env) == Success(ps[0]);
  }

  /**
    A focus output whose `regions` array is empty never reads the focus value,
    so it gives an empty list even when `data.focus` is missing.
  */
  lemma EmptyRegionsSkipFocusValue(modelType: PT.ModelType, item: Json, env: Env)
    requires modelType.predictionName == "Focus"
    requires DataObject(item).Success? && |DataObject(item).value| > 0
    requires Lookup(DataObject(item).value, "regions") == Some(JArray([]))
    ensures DeserializePredictions(modelType, item, env) == Success([])
  {
    assert PT.FromName("Focus") == Some(PT.Focus);
  }

  /** The generic path gives exactly the output of the non-generic path with `ConstructFromName(T.Name)`. */
  lemma GenericMatchesNonGeneric(target: Target, item: Json, env: Env, modelType: PT.ModelType)
    requires env.constructFromName(TargetName(target)) == Success(modelType)
    ensures DeserializeAs(target, item, env).Success? <==> Deserialize(modelType, item, env).Success?
    ensures DeserializeAs(target, item, env).Success? ==>
      DeserializeAs(target, item, env).value == TypedOutput(target, Deserialize(modelType, item, env).value)
    ensures Deserialize(modelType, item, env).Failure? ==>
      DeserializeAs(target, item, env) == Failure(Deserialize(modelType, item, env).error)
  {
  }

  /**
    When `ConstructFromName(T.Name)` names class `T` itself, the typed view
    of a deserialized output never throws and holds all its predictions.
  */
  lemma ConsistentRegistryGivesTypedData(typeName: string, item: Json, env: Env)
    requires env.constructFromName(typeName) == Success(PT.ModelType(typeName))
    requires DeserializeAs(PredictionClass(typeName), item, env).Success?
    ensures var t := DeserializeAs(PredictionClass(typeName), item, env).value;
      Data(t) == Success(t.output.data)
  {
    var out := DeserializeAs(PredictionClass(typeName), item, env).value.output;
    assert DeserializePredictions(PT.ModelType(typeName), item, env) == Success(out.data);
  }

  /**
    When `ConstructFromName(T.Name)` for a class `T` names another class, the
    typed view of any output with predictions throws an invalid cast naming `T`.
  */
  lemma MismatchedRegistryFailsTypedData(typeName: string, otherName: string, item: Json, env: Env)
    requires otherName != typeName
    requires env.constructFromName(typeName) == Success(PT.ModelType(otherName))
    requires DeserializeAs(PredictionClass(typeName), item, env).Success?
    requires |DeserializeAs(PredictionClass(typeName), item, env).value.output.data| > 0
    ensures Data(DeserializeAs(PredictionClass(typeName), item, env).value) == Failure(InvalidCast(typeName))
  {
    var out := DeserializeAs(PredictionClass(typeName), item, env).value.output;
    assert DeserializePredictions(PT.ModelType(otherName), item, env) == Success(out.data);
    assert out.data[0] in out.data;
  }

  /** With `T = IPrediction` the typed view never throws, whatever model type the name gives. */
  lemma InterfaceTypedDataNeverFails(item: Json, env: Env)
    requires DeserializeAs(AnyPrediction, item, env).Success?
    ensures var t := DeserializeAs(AnyPrediction, item, env).value;
      Data(t) == Success(t.output.data)
  {
  }

  /**
    A concept output with two entries gives the two concepts their
    constructor builds, in the order of the `concepts` array.
  */
  lemma ConceptOutputExample(env: Env, c1: Json, c2: Json, f1: Fields, f2: Fields)
    requires env.variant(PT.Concept, c1) == Success(f1)
    requires env.variant(PT.Concept, c2) == Success(f2)
    ensures var item := JObject(map["id" := JString("o1"), "data" := JObject(map["concepts" := JArray([c1, c2])])]);
      DeserializePredictions(PT.ModelType("Concept"), item, env) == Success([Prediction.Concept(f1), Prediction.Concept(f2)])
  {
    var item := JObject(map["id" := JString("o1"), "data" := JObject(map["concepts" := JArray([c1, c2])])]);
    var data := map["concepts" := JArray([c1, c2])];
    assert DataObject(item) == Success(data);
    assert PT.FromName("Concept") == Some(PT.Concept);
    assert Builds(PT.ModelType("Concept"), item, env, [Prediction.Concept(f1), Prediction.Concept(f2)]);
  }

  /** A face-detection output with an empty `regions` array gives no predictions and no error. */
  lemma EmptyRegionsExample(env: Env)
    ensures var item := JObject(map["data" := JObject(map["regions" := JArray([])])]);
      DeserializePredictions(PT.ModelType("FaceDetection"), item, env) == Success([])
  {
    var item := JObject(map["data" := JObject(map["regions" := JArray([])])]);
    assert DataObject(item) == Success(map["regions" := JArray([])]);
    assert PT.FromName("FaceDetection") == Some(PT.FaceDetection);
  }

  /** A name outside the switch fails once `data` holds anything, and the error names the type. */
  lemma UnknownNameExample(env: Env)
    ensures var item := JObject(map["data" := JObject(map["regions" := JArray([])])]);
      DeserializePredictions(PT.ModelType("Region"), item, env) == Failure(UnknownOutputType("Region"))
  {
    var item := JObject(map["data" := JObject(map["regions" := JArray([])])]);
    assert DataObject(item) == Success(map["regions" := JArray([])]);
  }
}

=== FILE: collaborators.dfy ===
/**
  Stand-ins for the values and deserializers that the output deserializer
  calls but that are not part of this model. Each deserializer is a function
  parameter; a failure carries the message of the exception it raised.
*/
module Collaborators {
  import opened Wrappers
  import opened JsonTree
  import opened PredictionTypes

  /** The fields of a prediction whose class is not part of this model, as its constructor built them. */
  datatype Fields = Fields(source: Json)

  /** A bounding box, as `Crop.Deserialize` builds it. */
  datatype Crop = Crop(top: real, left: real, bottom: real, right: real)

  /** An output status, as `ClarifaiStatus.Deserialize` builds it. */
  datatype Status = Status(statusCode: int, description: string)

  /** A `DateTime`, kept opaque. */
  datatype Timestamp = Timestamp(ticks: int)

  /** An echoed input, as `ClarifaiInput.Deserialize` builds it. */
  datatype Input = Input(source: Json)

  datatype Env = Env(
    /** `Color.Deserialize`, `Concept.Deserialize`, ... for every class but `Focus`. */
    variant: (PredictionType, Json) -> Result<Fields, string>,
    /** `Crop.Deserialize`, given `region_info.bounding_box` (possibly C# null). */
    crop: Dyn -> Result<Crop, string>,
    /** `ClarifaiStatus.Deserialize`, given `status` (possibly C# null). */
    status: Dyn -> Result<Status, string>,
    /** The `(DateTime)` conversion of a present `created_at`. */
    dateTime: Json -> Result<Timestamp, string>,
    /** `ClarifaiInput.Deserialize`, given a non-null `input`. */
    input: Json -> Result<Input, string>,
    /** `ModelType.ConstructFromName`. */
    constructFromName: string -> Result<ModelType, string>,
    /** Invariant-culture parsing of a decimal held in a JSON string. */
    parseDecimal: string -> Option<real>,
    /** .NET text of a JSON number or boolean converted to `string`. */
    scalarText: Json -> string
  )
}

=== FILE: errors.dfy ===
/** The exceptions that abort a deserialization, one constructor per cause. */
module Errors {

  datatype Error =
      /** `.Count` was read from, or `foreach` run over, a C# null. */
    | NullReference(member: string)
      /** A `dynamic` member was read from a C# null or from a JSON value that is not an object. */
    | RuntimeBinder(member: string)
      /** An explicit conversion (to `JObject`, `decimal`, `string`, `DateTime`, ...) failed. */
    | InvalidCast(target: string)
      /** A numeric conversion whose value lies outside the target type's range. */
    | Overflow(target: string)
      /** A `ClarifaiException`, raised by the type-name switch. */
    | ClarifaiException(message: string)
      /** An exception raised inside a collaborator that is not part of this model. */
    | Raised(message: string)

  /** The message of the exception raised for an unknown prediction type name. */
  function UnknownOutputTypeMessage(typeName: string): (msg: string)
    ensures |msg| == |typeName| + 22
    ensures msg[..21] == "Unknown output type `"
    ensures msg[21..|msg| - 1] == typeName
    ensures msg[|msg| - 1] == '`'
  {
    "Unknown output type `" + typeName + "`"
  }

  /** The exception the type-name switch raises for a name it does not know. */
  function UnknownOutputType(typeName: string): Error
  {
    ClarifaiException(UnknownOutputTypeMessage(typeName))
  }

  /** Distinct unknown names give distinct messages, so the error tells which name was refused. */
  lemma UnknownOutputTypeNamesType(a: string, b: string)
    requires UnknownOutputType(a) == UnknownOutputType(b)
    ensures a == b
  {
    var ma, mb := UnknownOutputTypeMessage(a), UnknownOutputTypeMessage(b);
    assert ma[21..|ma| - 1] == a;
    assert mb[21..|mb| - 1] == b;
  }
}

=== FILE: focus.dfy ===
/** The `Focus` prediction: deserialization from a region, equality and hash code. */
module FocusPrediction {
  import opened Wrappers
  import opened Errors
  import opened JsonTree
  import opened Collaborators
  import opened Predictions

  /** The `TYPE` tag every focus prediction reports. */
  const Type: string := "focus"

  /** `f.TYPE`. */
  function Tag(f: FocusData): string
  {
    Type
  }

  /** Every focus prediction reports the same tag, `"focus"`, whatever its fields. */
  lemma TagIsFocus(a: FocusData, b: FocusData)
    ensures Tag(a) == Tag(b) == "focus"
  {
  }

  /** `region.region_info.bounding_box`. */
  function BoundingBox(region: Json): Result<Dyn, Error>
  {
    Path(Some(region), ["region_info", "bounding_box"])
  }

  /** `region.data.focus.density`. */
  function DensityField(region: Json): Result<Dyn, Error>
  {
    Path(Some(region), ["data", "focus", "density"])
  }

  /**
    Builds a focus prediction from one region and the focus value shared by
    the whole output. The crop comes from the region's bounding box, the
    density from the region's own focus data, and the value is the argument.
  */
  function Deserialize(region: Json, value: real, env: Env): (r: Result<FocusData, Error>)
    ensures r.Success? <==>
      && BoundingBox(region).Success?
      && env.crop(BoundingBox(region).value).Success?
      && DensityField(region).Success?
      && ToDecimal(DensityField(region).value, env.parseDecimal).Success?
    ensures r.Success? ==>
      && r.value.crop == env.crop(BoundingBox(region).value).value
      && r.value.density == ToDecimal(DensityField(region).value, env.parseDecimal).value
      && r.value.value == value
    // The first read that throws gives the error.
    ensures BoundingBox(region).Failure? ==> r == Failure(BoundingBox(region).error)
    ensures BoundingBox(region).Success? && env.crop(BoundingBox(region).value).Failure? ==>
      r == Failure(Raised(env.crop(BoundingBox(region).value).error))
    ensures BoundingBox(region).Success? && env.crop(BoundingBox(region).value).Success? ==>
      && (DensityField(region).Failure? ==> r == Failure(DensityField(region).error))
      && (DensityField(region).Success? && ToDecimal(DensityField(region).value, env.parseDecimal).Failure? ==>
            r == Failure(ToDecimal(DensityField(region).value, env.parseDecimal).error))
    ensures r.Failure? ==> !r.error.ClarifaiException?
  {
    var box :- BoundingBox(region);
    var crop :- env.crop(box).MapFailure(msg => Raised(msg));
    var density :- DensityField(region);
    var d :- ToDecimal(density, env.parseDecimal);
    Success(FocusData(crop, d, value))
  }

  /**
    `Equals(object)`: the other object is a focus prediction with the same
    crop, density and value. `None` stands for a null argument.
  */
  function Equals(f: FocusData, obj: Option<Prediction>): (r: bool)
    ensures r <==> obj == Some(Prediction.Focus(f))
  {
    match obj
    case Some(Focus(g)) => f.crop == g.crop && f.density == g.density && f.value == g.value
    case _ => false
  }

  /** The value of a region's focus prediction does not depend on the region. */
  lemma ValueIndependentOfRegion(r1: Json, r2: Json, value: real, env: Env)
    requires Deserialize(r1, value, env).Success? && Deserialize(r2, value, env).Success?
    ensures Deserialize(r1, value, env).value.value == Deserialize(r2, value, env).value.value == value
  {
  }

  /**
    Two regions whose bounding boxes and focus densities read the same give
    equal focus predictions for the same value, whatever else they hold.
  */
  lemma SameBoxAndDensityGiveEqualFocus(r1: Json, r2: Json, value: real, env: Env)
    requires BoundingBox(r1) == BoundingBox(r2)
    requires DensityField(r1) == DensityField(r2)
    requires Deserialize(r1, value, env).Success?
    ensures Deserialize(r2, value, env).Success?
    ensures Equals(Deserialize(r1, value, env).value, Some(Prediction.Focus(Deserialize(r2, value, env).value)))
  {
  }

  /** `Equals` is reflexive, symmetric and transitive on focus predictions. */
  lemma EqualsIsEquivalence(a: FocusData, b: FocusData, c: FocusData)
    ensures Equals(a, Some(Prediction.Focus(a)))
    ensures Equals(a, Some(Prediction.Focus(b))) <==> Equals(b, Some(Prediction.Focus(a)))
    ensures Equals(a, Some(Prediction.Focus(b))) && Equals(b, Some(Prediction.Focus(c)))
      ==> Equals(a, Some(Prediction.Focus(c)))
  {
  }

  const HashSeed: int := -1649476860
  const HashFactor: int := -1521134295

  /** Two's-complement truncation of an integer to 32 bits, as unchecked `int` arithmetic does. */
  function Int32(x: int): (r: int)
    ensures -0x8000_0000 <= r < 0x8000_0000
    ensures (x - r) % 0x1_0000_0000 == 0
  {
    var m := x % 0x1_0000_0000;
    if m >= 0x8000_0000 then m - 0x1_0000_0000 else m
  }

  /** One step of the hash: multiply the running hash and add a field's hash, in 32 bits. */
  function Mix(hash: int, fieldHash: int): int
  {
    Int32(hash * HashFactor + fieldHash)
  }

  /**
    `GetHashCode`, mixing the crop's hash with the density's and the value's.
    The field hashes come from `Crop` and `decimal`, which are not part of this model.
  */
  function HashCode(f: FocusData, cropHash: Crop -> int, decimalHash: real -> int): (h: int)
    ensures -0x8000_0000 <= h < 0x8000_0000
  {
    Mix(Mix(Mix(HashSeed, cropHash(f.crop)), decimalHash(f.density)), decimalHash(f.value))
  }

  /** Equal focus predictions have equal hash codes. */
  lemma EqualFocusHaveEqualHash(a: FocusData, b: FocusData, cropHash: Crop -> int, decimalHash: real -> int)
    requires Equals(a, Some(Prediction.Focus(b)))
    ensures HashCode(a, cropHash, decimalHash) == HashCode(b, cropHash, decimalHash)
  {
  }
}

=== FILE: json_tree.dfy ===
/**
  The loosely typed JSON tree the deserializers read through C# `dynamic`,
  and the member reads and explicit conversions they perform on it.
*/
module JsonTree {
  import opened Wrappers
  import opened Errors

  datatype Json =
    | JNull
    | JBool(b: bool)
    | JNumber(n: real)
    | JString(s: string)
    | JArray(items: seq<Json>)
    | JObject(members: map<string, Json>)

  /**
    What a `dynamic` member read yields: `None` is the C# null that a missing
    property gives, `Some(JNull)` is a property whose JSON value is null.
  */
  type Dyn = Option<Json>

  /** True for both a C# null and a JSON null, which `!= null` does not tell apart. */
  predicate IsNull(d: Dyn) {
    d.None? || d.value.JNull?
  }

  /** The property `name` of an object's members, or C# null when it is missing. */
  function Lookup(members: map<string, Json>, name: string): (d: Dyn)
    ensures d.Some? <==> name in members
  {
    if name in members then Some(members[name]) else None
  }

  /** `d.name` on a dynamic value: only an object has members; null and other values throw. */
  function Member(d: Dyn, name: string): (r: Result<Dyn, Error>)
    ensures r.Success? <==> d.Some? && d.value.JObject?
    ensures r.Success? ==> r.value == Lookup(d.value.members, name)
    ensures r.Failure? ==> r.error == RuntimeBinder(name)
    ensures r.Failure? ==> !r.error.ClarifaiException?
  {
    match d
    case None => Failure(RuntimeBinder(name))
    case Some(JObject(m)) => Success(Lookup(m, name))
    case Some(_) => Failure(RuntimeBinder(name))
  }

  /** `d.n0.n1...`: a chain of member reads, failing at the first that throws. */
  function Path(d: Dyn, names: seq<string>): (r: Result<Dyn, Error>)
    ensures |names| == 0 ==> r == Success(d)
    ensures |names| > 0 && r.Success? ==> d.Some? && d.value.JObject?
    ensures |names| == 1 ==> r == Member(d, names[0])
    ensures r.Failure? ==> !r.error.ClarifaiException?
    decreases |names|
  {
    if |names| == 0 then Success(d)
    else
      var next :- Member(d, names[0]);
      Path(next, names[1..])
  }

  /** The largest magnitude a C# `decimal` holds, 2^96 - 1. */
  const DecimalMax: real := 79228162514264337593543950335.0

  predicate InDecimalRange(x: real) {
    -DecimalMax <= x <= DecimalMax
  }

  /**
    `(decimal) d`. Numbers convert, booleans give 1 or 0, strings are parsed by
    `parse` (the invariant-culture decimal parser, not part of this model); a
    value outside the decimal range overflows; null, missing, arrays and
    objects fail the cast.
  */
  function ToDecimal(d: Dyn, parse: string -> Option<real>): (r: Result<real, Error>)
    ensures r.Success? ==> d.Some? && (d.value.JNumber? || d.value.JBool? || d.value.JString?)
    ensures r.Success? ==> InDecimalRange(r.value)
    ensures d.Some? && d.value.JNumber? ==>
      && (r.Success? <==> InDecimalRange(d.value.n))
      && (r.Success? ==> r.value == d.value.n)
      && (r.Failure? ==> r.error == Overflow("decimal"))
    ensures d.Some? && d.value.JBool? ==> r == Success(if d.value.b then 1.0 else 0.0)
    ensures IsNull(d) || d.value.JArray? || d.value.JObject? ==> r == Failure(InvalidCast("decimal"))
    ensures d.Some? && d.value.JString? ==>
      && (parse(d.value.s).None? ==> r == Failure(InvalidCast("decimal")))
      && (parse(d.value.s).Some? ==>
            r == if InDecimalRange(parse(d.value.s).value) then Success(parse(d.value.s).value)
                 else Failure(Overflow("decimal")))
  {
    var x :- match d
      case Some(JNumber(n)) => Success(n)
      case Some(JBool(b)) => Success(if b then 1.0 else 0.0)
      case Some(JString(s)) =>
        (match parse(s)
         case Some(v) => Success(v)
         case None => Failure(InvalidCast("decimal")))
      case _ => Failure(InvalidCast("decimal"));
    if InDecimalRange(x) then Success(x) else Failure(Overflow("decimal"))
  }

  /**
    `(string) d`. Null (C# or JSON) gives a null string, a string is kept, a
    number or boolean is printed by `text` (the .NET formatting, not part of
    this model); arrays and objects throw.
  */
  function ToText(d: Dyn, text: Json -> string): (r: Result<Option<string>, Error>)
    ensures r.Success? <==> !(d.Some? && (d.value.JArray? || d.value.JObject?))
    ensures r.Success? ==> (r.value.None? <==> IsNull(d))
    ensures d.Some? && d.value.JString? ==> r == Success(Some(d.value.s))
    ensures d.Some? && (d.value.JNumber? || d.value.JBool?) ==> r == Success(Some(text(d.value)))
    ensures r.Failure? ==> r.error == InvalidCast("string")
  {
    match d
    case None => Success(None)
    case Some(JNull) => Success(None)
    case Some(JString(s)) => Success(Some(s))
    case Some(JArray(_)) => Failure(InvalidCast("string"))
    case Some(JObject(_)) => Failure(InvalidCast("string"))
    case Some(j) => Success(Some(text(j)))
  }

  /**
    The entries a `foreach` over the payload `d` (read as member `name`) visits.
    Only a JSON array is enumerated; a null payload throws, and any other
    value is refused as an entry source.
  */
  function Enumerate(d: Dyn, name: string): (r: Result<seq<Json>, Error>)
    ensures r.Success? <==> d.Some? && d.value.JArray?
    ensures r.Success? ==> r.value == d.value.items
    ensures IsNull(d) ==> r == Failure(NullReference(name))
    ensures r.Failure? ==> !r.error.ClarifaiException?
  {
    match d
    case Some(JArray(xs)) => Success(xs)
    case _ => if IsNull(d) then Failure(NullReference(name)) else Failure(InvalidCast("IEnumerable"))
  }

  /** Reading `a` then `b` is reading the path `a + b`: `d.x.y` is `(d.x).y`. */
  lemma {:induction false} PathConcat(d: Dyn, a: seq<string>, b: seq<string>)
    ensures Path(d, a + b) ==
      (match Path(d, a)
       case Success(e) => Path(e, b)
       case Failure(err) => Failure(err))
    decreases |a|
  {
    if |a| > 0 {
      assert (a + b)[0] == a[0];
      assert (a + b)[1..] == a[1..] + b;
      match Member(d, a[0])
      case Success(next) => PathConcat(next, a[1..], b);
      case Failure(_) =>
    } else {
      assert a + b == b;
    }
  }
}

=== FILE: prediction_types.dfy ===
/**
  The prediction classes the output deserializer knows, the class name a
  model type carries, and the payload key each class is read from.
*/
module PredictionTypes {
  import opened Wrappers

  /** The prediction classes named in the type-name switch. */
  datatype PredictionType =
    | Color
    | Concept
    | Demographics
    | Embedding
    | FaceConcepts
    | FaceDetection
    | FaceEmbedding
    | Focus
    | Frame
    | Logo

  /**
    A model type, as far as the deserializer reads it: the name of the
    prediction class its `Prediction` property holds. The name is free text,
    since a model type may name a class the switch does not know.
  */
  datatype ModelType = ModelType(predictionName: string)

  /** `typeof(T).Name` of the prediction class. */
  function Name(t: PredictionType): string
  {
    match t
    case Color => "Color"
    case Concept => "Concept"
    case Demographics => "Demographics"
    case Embedding => "Embedding"
    case FaceConcepts => "FaceConcepts"
    case FaceDetection => "FaceDetection"
    case FaceEmbedding => "FaceEmbedding"
    case Focus => "Focus"
    case Frame => "Frame"
    case Logo => "Logo"
  }

  /** The case of the type-name switch a name selects; `None` is the `default` case. */
  function FromName(name: string): (r: Option<PredictionType>)
    ensures r.Some? ==> Name(r.value) == name
    ensures r.None? <==> forall t :: Name(t) != name
  {
    if name == "Color" then Some(Color)
    else if name == "Concept" then Some(Concept)
    else if name == "Demographics" then Some(Demographics)
    else if name == "Embedding" then Some(Embedding)
    else if name == "FaceConcepts" then Some(FaceConcepts)
    else if name == "FaceDetection" then Some(FaceDetection)
    else if name == "FaceEmbedding" then Some(FaceEmbedding)
    else if name == "Focus" then Some(Focus)
    else if name == "Frame" then Some(Frame)
    else if name == "Logo" then Some(Logo)
    else None
  }

  /** The property of the output's `data` object whose array a case enumerates. */
  function PayloadKey(t: PredictionType): string
  {
    match t
    case Color => "colors"
    case Concept => "concepts"
    case Embedding => "embeddings"
    case Frame => "frames"
    case Demographics | FaceConcepts | FaceDetection | FaceEmbedding | Focus | Logo => "regions"
  }

  /** Every class name is recognised by the switch, and selects that class. */
  lemma NameRoundTrip(t: PredictionType)
    ensures FromName(Name(t)) == Some(t)
  {
  }

  /** Distinct classes have distinct names, so a name selects at most one class. */
  lemma NameInjective(t: PredictionType, u: PredictionType)
    ensures Name(t) == Name(u) <==> t == u
  {
  }

  /**
    The five payload keys: the four single-purpose keys belong to exactly one
    class each, and all region-based classes share `regions`.
  */
  lemma PayloadKeySelection(t: PredictionType)
    ensures PayloadKey(t) == "colors" <==> t == Color
    ensures PayloadKey(t) == "concepts" <==> t == Concept
    ensures PayloadKey(t) == "embeddings" <==> t == Embedding
    ensures PayloadKey(t) == "frames" <==> t == Frame
    ensures PayloadKey(t) == "regions" <==>
      t in {Demographics, FaceConcepts, FaceDetection, FaceEmbedding, Focus, Logo}
  {
  }
}

=== FILE: predictions.dfy ===
/** The prediction values an output holds, one constructor per prediction class. */
module Predictions {
  import opened Collaborators
  import PT = PredictionTypes

  /** The fields of a `Focus` prediction. */
  datatype FocusData = FocusData(crop: Crop, density: real, value: real)

  datatype Prediction =
    | Color(fields: Fields)
    | Concept(fields: Fields)
    | Demographics(fields: Fields)
    | Embedding(fields: Fields)
    | FaceConcepts(fields: Fields)
    | FaceDetection(fields: Fields)
    | FaceEmbedding(fields: Fields)
    | Focus(focus: FocusData)
    | Frame(fields: Fields)
    | Logo(fields: Fields)

  /** The runtime class of a prediction. */
  function TypeOf(p: Prediction): PT.PredictionType
  {
    match p
    case Color(_) => PT.Color
    case Concept(_) => PT.Concept
    case Demographics(_) => PT.Demographics
    case Embedding(_) => PT.Embedding
    case FaceConcepts(_) => PT.FaceConcepts
    case FaceDetection(_) => PT.FaceDetection
    case FaceEmbedding(_) => PT.FaceEmbedding
    case Focus(_) => PT.Focus
    case Frame(_) => PT.Frame
    case Logo(_) => PT.Logo
  }

  /** `p.GetType().Name`. */
  function ClassName(p: Prediction): string
  {
    PT.Name(TypeOf(p))
  }

  /** The prediction of class `t` holding the fields its constructor built. */
  function Wrap(t: PT.PredictionType, f: Fields): (p: Prediction)
    requires t != PT.Focus
    ensures TypeOf(p) == t && !p.Focus? && p.fields == f
  {
    match t
    case Color => Color(f)
    case Concept => Concept(f)
    case Demographics => Demographics(f)
    case Embedding => Embedding(f)
    case FaceConcepts => FaceConcepts(f)
    case FaceDetection => FaceDetection(f)
    case FaceEmbedding => FaceEmbedding(f)
    case Frame => Frame(f)
    case Logo => Logo(f)
  }

  /**
    A type argument `T` of the generic output: a concrete prediction class,
    named as `typeof(T).Name`, or the `IPrediction` interface every prediction implements.
  */
  datatype Target = PredictionClass(name: string) | AnyPrediction

  /** `typeof(T).Name`. */
  function TargetName(t: Target): string
  {
    match t
    case PredictionClass(n) => n
    case AnyPrediction => "IPrediction"
  }

  /** `p is T`: every prediction is an `IPrediction`; otherwise its class must be `T`. */
  predicate IsInstance(p: Prediction, t: Target)
  {
    t.AnyPrediction? || ClassName(p) == t.name
  }
}

=== FILE: wrappers.dfy ===
/** Failure-compatible Option and Result datatypes used throughout the model. */
module Wrappers {

  /** A value that may be absent. */
  datatype Option<+T> = None | Some(value: T)

  /** Either a computed value or the error that aborted the computation. */
  datatype Result<+R, +E> = Success(value: R) | Failure(error: E) {

    predicate IsFailure() {
      Failure?
    }

    function PropagateFailure<U>(): Result<U, E>
      requires Failure?
    {
      Failure(error)
    }

    function Extract(): R
      requires Success?
    {
      value
    }

    /** Converts the value with `f` and keeps the error. */
    function MapValue<R2>(f: R -> R2): Result<R2, E>
    {
      match this
      case Success(v) => Success(f(v))
      case Failure(e) => Failure(e)
    }

    /** Keeps the value and converts the error with `wrap`. */
    function MapFailure<E2>(wrap: E -> E2): Result<R, E2>
    {
      match this
      case Success(v) => Success(v)
      case Failure(e) => Failure(wrap(e))
    }
  }
}
